=== FILE: README.md ===
# Authentication core of s2_tp_node, in Dafny

This project models the authentication core of a small Express/Mongoose application:

- **Sign-up (`register`).** The handler reads the body, checks it and inserts a `User` document whose password has been hashed.
- **Sign-in (`login`).** The handler checks the credentials and returns a signed token.
- **`verifyToken`.** This middleware guards the private routes with the token kept in the session.

Each handler is a pure function. It takes:

- the request fields
- the users collection
- the outside collaborators

`register` returns the HTTP reply (status, JSON body, token) together with the collection afterwards. `login` returns only the reply, because it never writes to the collection. `verifyToken` returns what the gate does: reply, or call `next` with the user id.

The outside collaborators are function-typed fields of a datatype:

- the HMAC-SHA256 primitive and its secret
- `jwt.sign` / `jwt.verify` (the clock is inside `verify`)
- `validator.isEmail` and `validator.isStrongPassword`
- per-character `toUpperCase` / `toLowerCase`
- the way Mongoose matches a non-string filter value

Modules:

- `Wrappers`, `Values`: `Option`/`Result`, and request values with JavaScript truthiness. The application parses bodies with `express.urlencoded({ extended: false })` (`server.js:38`), which yields only strings and arrays of strings. `Json` is a superset of that, so every statement about it covers the values a real request can carry. `Values` also captures the three outcomes of `!v || isEmpty(v)`: blank, a non-empty string, or a `TypeError` for a truthy non-string.
- `Text`: `String.prototype.trim` with the ECMAScript whitespace set, `indexOf`, `replace` of the first occurrence, and string length in UTF-16 code units. A Dafny `char` is a Unicode scalar value. JavaScript's `length` counts a character above U+FFFF as two code units, and `CodeUnits` counts the same way.
- `Decimal`: rendering of the numbers inside messages.
- `Rules`, `Messages`: the two regular expressions, read without the `u` flag, and the French validation messages.
- `Utils`: `capitalize`, `trimData` and `hashPassword`. The hex rendering of the digest is modelled exactly.
- `UserModel`: the schema validators in declaration order, the pre-save hook, `comparePassword`, `createJWT`, and `save` with its unique indexes.
- `AuthController`: `register` and `login`.
- `AuthMiddleware`: `verifyToken`.

## Model

| member | source | states |
|---|---|---|
| Values.PresenceOf | controllers/authController.js:26 | `!v \|\| isEmpty(v)` is true exactly for falsy values. It passes exactly the non-empty strings. Any other truthy value makes `isEmpty` throw. |
| Text.Trim | utils/utils.js:16 | The result of `trim` is an infix of the input with non-blank ends. Everything cut off at either side is ECMAScript whitespace or a line terminator. |
| Text.TrimFixedPoints | utils/utils.js:16 | `trim` leaves a string unchanged exactly when neither end is blank. |
| Text.TrimIdempotent | utils/utils.js:16 | Trimming twice is trimming once. |
| Text.CodeUnits | Models/User.js:20-21 | The length Mongoose's `minlength`/`maxlength` and the password regex measure lies between the number of characters and twice that. |
| Text.CodeUnitsIsLengthIff | Models/User.js:20-21 | The code-unit length equals the character count exactly when no character lies above U+FFFF. |
| Text.IndexOf | utils/utils.js:10 | The search `replace` performs finds the first occurrence of the pattern, or none when there is none. |
| Text.ReplaceFirst | utils/utils.js:10 | Without an occurrence the string is unchanged. Otherwise, at the first occurrence, the pattern is cut out and the replacement put in its place, and both sides are kept. |
| Utils.Capitalize | utils/utils.js:9-11 | `capitalize` keeps the length and upper-cases index 0. Every other character is unchanged, because the first occurrence of `str[0]` is at index 0. A first character above U+FFFF is left as it is: `str[0]` is then a lone high surrogate, which neither `toUpperCase` nor the replacement changes. |
| Utils.CapitalizeIdempotent | utils/utils.js:9-11 | Capitalizing twice is capitalizing once, when upper-casing is idempotent. |
| Utils.CapitalizeKeepsTrimmed | utils/utils.js:9-11 | A trimmed name stays trimmed after capitalization when the upper-cased first character is not whitespace, so the schema's `trim` setter leaves it alone. |
| Utils.TrimData | utils/utils.js:14-19 | `trimData` keeps every key, trims every string value and keeps every non-string value. |
| Utils.TrimDataIdempotent | utils/utils.js:14-19 | Applying `trimData` to an already trimmed body changes nothing. |
| Utils.GetTrimmed | utils/utils.js:14-19 | Reading a field after `trimData` gives the trimmed string, or the untouched non-string, or `undefined`. |
| Utils.Hex | utils/utils.js:25 | `digest('hex')` has two lower-case hex digits per byte. |
| Utils.UnhexHex | utils/utils.js:25 | The hex rendering is decoded back to the same bytes. |
| Utils.HexInjective | utils/utils.js:25 | Two byte strings have the same hex rendering exactly when they are equal. |
| Utils.HashPassword | utils/utils.js:22-26 | `hashPassword` yields 64 lower-case hex digits. |
| Utils.HashPasswordEqualIff | utils/utils.js:22-26 | Two passwords hash to the same digest exactly when their HMACs under the secret are equal. |
| Decimal.FromNat | validation/validationMessages.js:3-5 | An interpolated bound is a non-empty digit string without leading zeros. |
| Decimal.ToNatFromNat | validation/validationMessages.js:3-5 | The interpolated bound reads back as the number. |
| Decimal.FromNatInjective | validation/validationMessages.js:3-5 | Different bounds give different texts. |
| Messages.RequiredInjective | validation/validationMessages.js:2 | Distinct labels give distinct `required` messages. |
| Messages.MinLengthInjective | validation/validationMessages.js:3-4 | A `minLength` message determines both its label and its bound. |
| Messages.MaxLengthInjective | validation/validationMessages.js:5 | A `maxLength` message determines both its label and its bound. |
| Messages.NameFieldsInjective | validation/validationMessages.js:7-8 | A `nameFields` message determines its label. |
| Messages.ConstantMessagesDistinct | validation/validationMessages.js:6-13 | The five constant messages are pairwise distinct, so a reply's message identifies which check refused the request. |
| Rules.TestNameFields | validation/validationRules.js:2 | The scan accepts exactly the strings of at least two characters from `[a-zA-ZÀ-ÿ'-]` that start and end with a letter of `[a-zA-ZÀ-ÿ]`. |
| Rules.NameEndsAreLetters | validation/validationRules.js:2 | An accepted name never starts or ends with an apostrophe or a hyphen. |
| Rules.NameShapeAdmitsArithmeticSigns | validation/validationRules.js:2 | The range `À-ÿ` also admits `×` and `÷`. A `+` is refused. |
| Rules.PasswordRuleIff | validation/validationRules.js:3 | The password rule accepts exactly the strings of 6 to 255 code units with no character from `<>{}()\`` and no line terminator. This holds even though the lookahead only scans up to the first line break. |
| Rules.NameShapeIsBmp | validation/validationRules.js:2 | Every character a name may contain is below U+FFFF, so an accepted name's code-unit length is its character count. |
| Rules.PasswordRuleCountsCodeUnits | validation/validationRules.js:3 | The `{6,255}` bound counts code units: three characters above U+FFFF pass, five ASCII letters do not. |
| Rules.ForbiddenInsertionRejected | validation/validationRules.js:3 | Inserting a forbidden character anywhere makes the rule reject the password. |
| UserModel.NameError | Models/User.js:16-37 | A name path fails exactly when its value is not a valid name. The message is the first failing validator's, in declaration order: `required`, `minlength` 2, `maxlength` 255, then the pattern. |
| UserModel.EmailError | Models/User.js:38-49 | The email path fails exactly when the value is empty, longer than 255, or rejected by `isEmail`. The message is the corresponding one. |
| UserModel.PasswordError | Models/User.js:50-66 | The password path fails exactly when the value is empty, shorter than 6, longer than 255, or rejected by the strength check. The message is the corresponding one. |
| UserModel.LengthsCountCodeUnits | Models/User.js:16-66 | The schema's length bounds count code units: a three-emoji password passes `minlength` 6 and a one-emoji first name passes `minlength` 2, and each is then judged by its next validator. |
| UserModel.Validate | Models/User.js:14-69 | Validation reports nothing exactly when all four paths are valid. It reports at most one error per path. |
| UserModel.ComparePassword | Models/User.js:80-83 | `comparePassword` accepts an input only when the stored password is a 64-digit hex digest that decodes to the input's HMAC. |
| UserModel.CreateJwt | Models/User.js:85-93 | The token depends on the document only through its `_id`. With a sound signer (`SoundJwt`: every signed token is non-empty and verifies back to its payload) the token is truthy and `jwt.verify` gives back exactly `{ id: _id }`. |
| UserModel.PreSave | Models/User.js:72-77 | The pre-save hook changes only the password. A modified password becomes a 64-digit hash that `comparePassword` accepts for the plaintext. An unmodified document is left alone. |
| UserModel.ComparePasswordAfterSave | Models/User.js:80-83 | After the hook, `comparePassword` accepts an input exactly when its HMAC equals the plaintext's HMAC. It always accepts the original plaintext. |
| UserModel.Save | Models/User.js:14-77 | `save` succeeds exactly on a valid document whose email and `_id` are both unused. On success the collection gains exactly that document, hashed. A collection keyed by email with unique ids stays so. An invalid document gets its validation errors, and a taken email or `_id` gets a duplicate-key error. |
| AuthController.EmailKey | controllers/authController.js:97 | The key `login` queries and `register` stores, `toLowerCase()` then the `trim` setter, has no blank end and is no longer than the input. |
| AuthController.EmailKeyOfCanonical | controllers/authController.js:97 | A trimmed email that lowercasing leaves alone is its own key. |
| AuthController.EmailFilterHits | controllers/authController.js:32-35 | The raw-email existence query never finds anything in an empty collection. For a trimmed string, it finds a document exactly when that string is stored. |
| AuthController.NameInput | controllers/authController.js:54-55 | `capitalize` of a name field succeeds exactly on a non-empty string. Anything else throws a `TypeError`. |
| AuthController.EmailInput | controllers/authController.js:56 | `emailInput.toLowerCase()` succeeds exactly on a string. Anything else throws a `TypeError`. |
| AuthController.NewUser | controllers/authController.js:53-58 | `new User({...})` is built exactly when both names are non-empty strings and the email is a string. Otherwise `capitalize` or `toLowerCase` throws a `TypeError` while the arguments are built. |
| AuthController.SaveNewUser | controllers/authController.js:53-66 | The save half answers 200 or 500 and never a token. A 500 is exactly a caught exception and leaves the collection unchanged. A 200 adds exactly one document and keeps every other. The collection stays keyed by email with unique ids. |
| AuthController.Field | controllers/authController.js:16 | A field read after `trimData` is never a string with a blank end. |
| AuthController.LowerCase | controllers/authController.js:56 | `toLowerCase` maps every character and keeps the length. |
| AuthController.HandlersReadTrimmedInput | controllers/authController.js:16 | Trimming the body first does not change what `register` and `login` read. |
| AuthController.HandleRegister | controllers/authController.js:8-16 | The `register` route on the raw body: a body without `confirmPassword` gets 400 `required('Confirmer le mot de passe')` with the collection unchanged. No token is ever sent, and anything but a 200 leaves the collection unchanged. |
| AuthController.Register | controllers/authController.js:8-68 | `register` answers 200, 400 or 500 and never sends a token. A 500 is exactly a caught exception. Only a 200 changes the collection, and then by exactly one new document. The collection stays keyed by email with unique ids. |
| AuthController.RegisterBlankConfirmation | controllers/authController.js:26-30 | A missing or empty confirmation is refused with `required('Confirmer le mot de passe')` before anything is looked up. |
| AuthController.TrimmedEmailFilter | controllers/authController.js:32-35 | For a trimmed string, the existence query finds a document exactly when that exact string is stored. |
| AuthController.RegisterExistingEmail | controllers/authController.js:37-40 | An email already stored as typed is refused with `userExists`, whatever the passwords. |
| AuthController.RegisterCaseVariantFailsAtSave | controllers/authController.js:32-60 | A stored email typed with different case passes the existence check and fails at `save` with status 500. The collection is unchanged. |
| AuthController.RegisterReachesSave | controllers/authController.js:26-60 | A form that passes the three checks but whose lowercased email is stored ends in 500, with the collection unchanged. |
| AuthController.RegisterPastChecks | controllers/authController.js:26-60 | Once the confirmation, existence and match checks pass, `register` is exactly its save half. |
| AuthController.SaveRefusesStoredKey | controllers/authController.js:53-60 | A document whose lowercased email is already stored is refused by `save` with status 500, and the collection is unchanged. |
| AuthController.RegisterPasswordMismatch | controllers/authController.js:42-47 | Different password and confirmation give `confirmPasswordWrong` with status 400. |
| AuthController.RegisteredDocument | controllers/authController.js:53-58 | The stored document has capitalized names, the lowercased email, and a hash that `comparePassword` accepts for the plaintext. |
| AuthController.RegisterSucceeds | controllers/authController.js:53-64 | A valid registration whose email is new in both spellings adds exactly that document under the lowercased email. The reply greets the first name as typed. |
| AuthController.SaveNewUserSucceeds | controllers/authController.js:53-64 | The save half on a well-formed registration inserts the hashed document and greets the user. |
| AuthController.RegisterSuccessNeeds | controllers/authController.js:8-68 | Conversely, a 200 from `register` implies string fields, a new email in both spellings, a schema-valid document, an unused `_id` and no database failure. |
| AuthController.RegisterOkPath | controllers/authController.js:26-60 | A 200 from `register` implies a filled confirmation equal to the password, a reachable database, no stored document for the email as typed, and a 200 from the save half. |
| AuthController.SaveNewUserOkPath | controllers/authController.js:53-64 | A 200 from the save half implies no insert failure, a schema-valid document under the lowercased email, and an unused `_id`. |
| AuthController.HandleLogin | controllers/authController.js:70-72 | The `login` route on the raw body: a body with neither `email` nor `password` gets 400 with both `required` messages joined by `", "`. A token is sent only when both fields are present. |
| AuthController.Login | controllers/authController.js:70-123 | `login` answers 200, 400, 401 or 500. It sends a token exactly on 200, and a 500 is exactly a caught exception. A token is always the token of a stored document whose password matches the one sent. |
| AuthController.Authenticate | controllers/authController.js:95-119 | The lookup answers 401 exactly when the lowercased email is not stored. A token is issued only for the stored document that `comparePassword` accepts. |
| AuthController.LoginMissingFields | controllers/authController.js:79-93 | Missing fields are reported together, email first, joined by `", "`, before any lookup. |
| AuthController.LoginPastChecks | controllers/authController.js:79-98 | With both fields present and the database reachable, `login` is exactly its lookup half. |
| AuthController.LoginRejectsBadCredentials | controllers/authController.js:100-115 | An unknown email gives 401 and a wrong password gives 400, both with `incorrectCredentials`. |
| AuthController.LoginSucceeds | controllers/authController.js:117-119 | The right password for a stored email gives 200, `Vous êtes bien connecté !`, and a token signed over that document's id. |
| AuthController.LoginAfterRegister | controllers/authController.js:8-123 | Logging in after a successful registration works with the same password and any email spelling with the same lowercase form. The token carries the new `_id`. |
| AuthMiddleware.VerifyToken | middlewares/authMiddlewares.js:6-22 | The gate either replies or calls `next` exactly once, never both. A falsy token gives 401. A token that is not a string, or that `jwt.verify` rejects, gives 403 with an `error` body. Otherwise `req.userId` is the decoded id. |
| AuthMiddleware.SignedTokenPassesGate | middlewares/authMiddlewares.js:14-20 | A session holding a valid token signed over some claims passes with the id from those claims. |
| AuthMiddleware.LoginTokenPassesGate | Models/User.js:85-93 | The token a successful login returns, once kept in the session, passes the gate with the logged-in user's id. |
| AuthMiddleware.RegisteredUserPassesGate | middlewares/authMiddlewares.js:6-22 | Register, log in, keep the token: the gate attaches the new document's `_id`. |

## Source behaviour the model follows

- `controllers/authController.js:3` imports `comparePassword` from `utils/utils.js`, which exports no such function.
  - As written, the module fails to link.
  - The model uses the password comparison the `User` model defines (`Models/User.js:80-83`): hash the input, compare it with the stored digest.
- The password strength check runs `isStrongPassword` with `returnScore: true`.
  - It then returns a score. `validator` scores at least one point per distinct character, so the score is truthy for every non-empty password, and every password reaching this check is at least 6 code units long.
  - So the lower-case/upper-case/digit policy that `weakPassword` describes is not what the schema enforces, and the `weakPassword` message is never produced as written. `UserModel.PasswordError` keeps that branch behind the outside `strongPasswordPasses` predicate, which a caller may take to be always true.
  - The model keeps the check as an outside predicate and does not assume the policy.
- The email field declares `lowerCase: true`, which is not a Mongoose option (the option is `lowercase`).
  - Only the `trim` setter applies.
  - The existence query in `register` uses the email as typed, while the document is saved lowercased.
  - So an email that differs from a stored one only in case passes the existence check and is refused by the unique index at `save` with status 500. `AuthController.RegisterCaseVariantFailsAtSave` states this.
- `login` returns the token in the JSON body. It does not write it into the session.
  - No file of the application writes `req.session.token`: the session data lives on the server (`express-session`), and the only other session access reads `req.session.auth` (`controllers/page_renderers/login.js:2`).
  - So, as written, every request through `verifyToken` gets the 401 for a missing token (`middlewares/authMiddlewares.js:10-12`).
  - The gate lemmas (`AuthMiddleware.LoginTokenPassesGate`, `AuthMiddleware.RegisteredUserPassesGate`) assume a session holding the login token, which no code of the application produces.
- A 403 from `verifyToken` only replies `{ error }`. It does not touch any session flag.
- The success message of `register` keeps the source's spelling "Bienvnue".
- The greeting uses the trimmed first name as typed, not the capitalized one.
- `validationRules.password` (`validation/validationRules.js:3`) is referenced nowhere.
  - The schema's password validator is `isStrongPassword` (`Models/User.js:55-65`).
  - So `Rules.PasswordRule` models a rule that the application never applies.

## Left out

- Logging (`console.log`), `dotenv` and the process environment: no effect on replies. The secrets and the token lifetime are parameters.
- HMAC-SHA256 itself: a parameter returning 32 bytes. Only its hex rendering is modelled.
- JWT encoding, signing and expiry: `jwt.sign` and `jwt.verify` are parameters, and the clock lives inside `verify`.
- `validator.isEmail` and the score of `validator.isStrongPassword`: third-party code, taken as predicates.
- Per-character case mapping: `toUpperCase`/`toLowerCase` are parameters applied character by character.
  - Multi-character mappings (such as `ß` to `SS`) are not modelled.
  - Context-sensitive mappings (the Greek final sigma, which lowercases `Σ` differently at the end of a word) are not modelled: no per-character `lower` can produce them.
  - `toLowerCase` and `toUpperCase` map by code point, so a `char` above U+FFFF is mapped as a whole, as `LowerCase` does. Only `capitalize`, which takes `str[0]`, sees a lone high surrogate, and it leaves that unchanged.
- Lone surrogates: a Dafny `char` cannot hold one, so strings with an unpaired surrogate are not modelled. Lengths and the regular expressions are otherwise read per UTF-16 code unit.
- Utils.Capitalize: requires a non-empty string. The source throws a `TypeError` on an empty or non-string argument, and `AuthController.NameInput` models that throw before calling it.
- Timestamps (`createdAt`, `updatedAt`): set by the database and never read by the core.
- Asynchronous execution and concurrent requests: each request is one atomic step on the collection.
- Database failures: modelled only as a flag that makes a lookup or an insert throw.
- How Mongoose casts a non-string email filter (arrays, query objects): a parameter.
- Logout, the dashboard, page rendering, routing and server start-up: not part of this model.
- UserModel.CreateJwt: what `jwt.verify` gives back is stated only under `SoundJwt`, an explicit assumption on the signer. Expiry is inside the `verify` parameter.
- Payloads signed by anything but `createJWT`: only `createJWT` signs with this secret, so every payload `jwt.verify` accepts is modelled as holding an id, and `verifyToken` always attaches one. A payload without `id` would make `decoded.id` `undefined`, and that is not modelled.

=== FILE: controller.dfy ===
/**
 * The `register` and `login` handlers of `controllers/authController.js`
 * as pure decisions: each reads the request body, the users collection and
 * the foreign collaborators. `register` yields the HTTP reply (status, JSON
 * body, token) together with the collection afterwards; `login` only reads
 * the collection and yields the reply alone.
 */
module AuthController {
  import opened Wrappers
  import opened Values
  import opened Text
  import opened Utils
  import opened UserModel
  import Messages

  /** The JSON body of a reply: `{ message }`, `{ error }`, or `{ error: error.message }` of a caught exception. */
  datatype Body = Message(text: string) | Error(text: string) | Thrown(fault: Fault)

  /** What a handler sends: status code, body, and the token field of a successful login. */
  datatype Reply = Reply(status: nat, body: Body, token: Option<string>)

  /**
   * The code the handlers call but that is not part of this model: hashing,
   * token signing, the `validator` checks, per-character `toUpperCase` and
   * `toLowerCase`, and how Mongoose matches a non-string filter value (a
   * list becomes `$in`, an object may be a query operator) against a stored email.
   */
  datatype Env = Env(
    crypto: Crypto,
    validators: Validators,
    jwt: Jwt,
    upper: char -> char,
    lower: char -> char,
    filterMatches: (Option<Json>, string) -> bool)

  /** Whether the database fails the lookup or the insert of a request. */
  datatype DbFaults = DbFaults(findFails: bool, saveFails: bool)

  /** A reply and the users collection after the request. */
  datatype Outcome = Outcome(reply: Reply, db: Store)

  function Respond(status: nat, text: string): Reply {
    Reply(status, Message(text), None)
  }

  /** The `catch` block: status 500 with the exception's message. */
  function ServerError(f: Fault): Reply {
    Reply(500, Thrown(f), None)
  }

  /** A string that `trim` would leave unchanged, or no string at all. */
  predicate TrimmedField(v: Option<Json>) {
    v.Some? && v.value.Str? ==> IsTrimmed(v.value.s)
  }

  /** A field of the body after `trimData`. */
  function Field(request: Record, key: string): (v: Option<Json>)
    ensures TrimmedField(v)
  {
    Get(TrimData(request), key)
  }

  /** Per-character `toLowerCase`. */
  function LowerCase(lower: char -> char, s: string): (r: string)
    ensures |r| == |s|
    ensures forall i :: 0 <= i < |s| ==> r[i] == lower(s[i])
  {
    if s == [] then [] else [lower(s[0])] + LowerCase(lower, s[1..])
  }

  /**
   * The email as the collection holds it and as `login` queries it:
   * `toLowerCase()`, then the schema's `trim` setter.
   */
  function EmailKey(env: Env, s: string): (key: string)
    ensures IsTrimmed(key) && |key| <= |s|
  {
    Trim(LowerCase(env.lower, s))
  }

  /**
   * Whether `User.findOne({ email: v })` finds a document for the raw field
   * `v`. A string is compared as is (the schema's `lowerCase` option is not
   * a Mongoose option, so nothing lowercases it); anything else is matched
   * the way Mongoose casts it.
   */
  function EmailFilterHits(env: Env, db: Store, v: Option<Json>): (hit: bool)
    ensures db == map[] ==> !hit
    ensures v.Some? && v.value.Str? && IsTrimmed(v.value.s) ==> (hit <==> v.value.s in db)
  {
    if v.Some? && v.value.Str? then TrimFixedPoints(v.value.s); Trim(v.value.s) in db
    else exists e :: e in db && env.filterMatches(v, e)
  }

  /** `capitalize(v)` for a name field, then the schema's `trim` setter; `capitalize` throws on anything but a non-empty string. */
  function NameInput(upper: char -> char, v: Option<Json>): (r: Result<string, Fault>)
    ensures r.Ok? <==> v.Some? && v.value.Str? && v.value.s != ""
    ensures r.Err? ==> r.error == TypeError
  {
    if v.Some? && v.value.Str? && v.value.s != "" then Ok(Trim(Capitalize(upper, v.value.s)))
    else Err(TypeError)
  }

  /** `emailInput.toLowerCase()`, which throws when the field is not a string. */
  function EmailInput(env: Env, v: Option<Json>): (r: Result<string, Fault>)
    ensures r.Ok? <==> v.Some? && v.value.Str?
    ensures r.Err? ==> r.error == TypeError
  {
    if v.Some? && v.value.Str? then Ok(EmailKey(env, v.value.s)) else Err(TypeError)
  }

  /** The success message of `register`, spelled as the handler spells it. */
  function Welcome(firstName: string): string {
    "Inscription réussie ! Bienvnue sur l'application " + firstName
  }

  /** The five fields `register` destructures from `trimData(req.body)`. */
  datatype RegisterForm = RegisterForm(
    firstName: Option<Json>,
    lastName: Option<Json>,
    email: Option<Json>,
    password: Option<Json>,
    confirmPassword: Option<Json>)

  predicate TrimmedRegisterForm(form: RegisterForm) {
    && TrimmedField(form.firstName) && TrimmedField(form.lastName) && TrimmedField(form.email)
    && TrimmedField(form.password) && TrimmedField(form.confirmPassword)
  }

  /** `const { firstName, lastName, email, password, confirmPassword } = trimData(req.body)`. */
  function ReadRegisterForm(request: Record): (form: RegisterForm)
    ensures TrimmedRegisterForm(form)
  {
    RegisterForm(Field(request, "firstName"), Field(request, "lastName"), Field(request, "email"),
                 Field(request, "password"), Field(request, "confirmPassword"))
  }

  /** `new User({ ... })` with capitalized names, the lowercased email and the plaintext password. */
  function NewUser(env: Env, id: Id, form: RegisterForm, password: string): (r: Result<User, Fault>)
    ensures r.Ok? <==> && NameInput(env.upper, form.firstName).Ok?
                       && NameInput(env.upper, form.lastName).Ok?
                       && EmailInput(env, form.email).Ok?
    ensures r.Err? ==> r.error == TypeError
  {
    var first := NameInput(env.upper, form.firstName);
    var last := NameInput(env.upper, form.lastName);
    var email := EmailInput(env, form.email);
    if first.Err? || last.Err? || email.Err? then Err(TypeError)
    else Ok(User(id, first.value, last.value, email.value, password))
  }

  /**
   * The second half of `register`: build the document, save it, greet the
   * user. Any exception along the way becomes a 500.
   */
  function SaveNewUser(env: Env, db: Store, saveFails: bool, newId: Id, form: RegisterForm, password: string): (out: Outcome)
    ensures out.reply.status == 200 || out.reply.status == 500
    ensures out.reply.token == None
    ensures out.reply.status == 500 <==> out.reply.body.Thrown?
    ensures out.reply.status == 500 ==> out.db == db
    ensures out.reply.status == 200 ==> && |out.db| == |db| + 1
                                        && (forall e :: e in db ==> e in out.db && out.db[e] == db[e])
    ensures WellFormed(db) ==> WellFormed(out.db)
  {
    match NewUser(env, newId, form, password)
    case Err(f) => Outcome(ServerError(f), db)
    case Ok(u) =>
      match Save(env.validators, env.crypto, db, u, saveFails)
      case Err(f) => Outcome(ServerError(f), db)
      case Ok(saved) => Outcome(Respond(200, Welcome(form.firstName.value.s)), saved)
  }

  /**
   * The decisions of `register(req, res)` on the destructured fields.
   * `newId` is the `_id` Mongoose assigns to the new document. The checks
   * run in the source's order: confirmation present, raw email unknown,
   * passwords equal; then the document is built and saved.
   */
  function Register(env: Env, db: Store, faults: DbFaults, newId: Id, form: RegisterForm): (out: Outcome)
    ensures out.reply.status == 200 || out.reply.status == 400 || out.reply.status == 500
    ensures out.reply.token == None
    ensures out.reply.status == 500 <==> out.reply.body.Thrown?
    ensures out.reply.status != 200 ==> out.db == db
    ensures out.reply.status == 200 ==> && |out.db| == |db| + 1
                                        && (forall e :: e in db ==> e in out.db && out.db[e] == db[e])
    ensures WellFormed(db) ==> WellFormed(out.db)
  {
    var confirm := PresenceOf(form.confirmPassword);
    if confirm.Blank? then Outcome(Respond(400, Messages.Required("Confirmer le mot de passe")), db)
    else if confirm.NotAString? then Outcome(ServerError(TypeError), db)
    else if faults.findFails then Outcome(ServerError(DatabaseError), db)
    else if EmailFilterHits(env, db, form.email) then Outcome(Respond(400, Messages.UserExists), db)
    else if form.password != Some(Str(confirm.s)) then Outcome(Respond(400, Messages.ConfirmPasswordWrong), db)
    else SaveNewUser(env, db, faults.saveFails, newId, form, confirm.s)
  }

  /**
   * The `register` route handler: destructure the trimmed body, then decide.
   * A body without `confirmPassword` is refused before any lookup, and only
   * a 200 touches the collection.
   */
  function HandleRegister(env: Env, db: Store, faults: DbFaults, newId: Id, request: Record): (out: Outcome)
    ensures "confirmPassword" !in request ==>
              out == Outcome(Respond(400, Messages.Required("Confirmer le mot de passe")), db)
    ensures out.reply.token == None && (out.reply.status != 200 ==> out.db == db)
  {
    var form := ReadRegisterForm(request);
    if "confirmPassword" !in request then
      assert form.confirmPassword == None;
      RegisterBlankConfirmation(env, db, faults, newId, form);
      Register(env, db, faults, newId, form)
    else Register(env, db, faults, newId, form)
  }

  /** `errors.join(sep)`. */
  function Join(parts: seq<string>, sep: string): string {
    if parts == [] then ""
    else if |parts| == 1 then parts[0]
    else parts[0] + sep + Join(parts[1..], sep)
  }

  const LoggedIn: string := "Vous êtes bien connecté !"

  /** The two fields `login` destructures from `trimData(req.body)`. */
  datatype LoginForm = LoginForm(email: Option<Json>, password: Option<Json>)

  function ReadLoginForm(request: Record): (form: LoginForm)
    ensures TrimmedField(form.email) && TrimmedField(form.password)
  {
    LoginForm(Field(request, "email"), Field(request, "password"))
  }

  /**
   * The decisions of `login(req, res)`: presence of both fields (a truthy
   * non-string throws inside `isEmpty`), lookup by the lowercased email,
   * password comparison, token. The collection is only read.
   */
  function Login(env: Env, db: Store, findFails: bool, form: LoginForm): (reply: Reply)
    ensures reply.status in {200, 400, 401, 500}
    ensures reply.token.Some? <==> reply.status == 200
    ensures reply.status == 500 <==> reply.body.Thrown?
    ensures reply.token.Some? ==>
              && PresenceOf(form.password).Filled?
              && exists e :: e in db && reply.token.value == CreateJwt(env.jwt, db[e])
                             && ComparePassword(env.crypto, db[e], PresenceOf(form.password).s)
  {
    var email := PresenceOf(form.email);
    if email.NotAString? then ServerError(TypeError)
    else
      var password := PresenceOf(form.password);
      if password.NotAString? then ServerError(TypeError)
      else
        var errors := (if email.Blank? then [Messages.Required("Email")] else [])
                      + (if password.Blank? then [Messages.Required("Mot de passe")] else []);
        if |errors| > 0 then Respond(400, Join(errors, ", "))
        else if findFails then ServerError(DatabaseError)
        else Authenticate(env, db, email.s, password.s)
  }

  /**
   * The lookup half of `login`: `findOne` on the lowercased email, then
   * `comparePassword`, then a token for the document's id.
   */
  function Authenticate(env: Env, db: Store, email: string, password: string): (reply: Reply)
    ensures reply.status in {200, 400, 401}
    ensures reply.token.Some? <==> reply.status == 200
    ensures reply.status == 401 <==> EmailKey(env, email) !in db
    ensures reply.token.Some? ==> && EmailKey(env, email) in db
                                  && ComparePassword(env.crypto, db[EmailKey(env, email)], password)
                                  && reply.token.value == CreateJwt(env.jwt, db[EmailKey(env, email)])
  {
    var key := EmailKey(env, email);
    if key !in db then Respond(401, Messages.IncorrectCredentials)
    else if !ComparePassword(env.crypto, db[key], password) then Respond(400, Messages.IncorrectCredentials)
    else Reply(200, Message(LoggedIn), Some(CreateJwt(env.jwt, db[key])))
  }

  /**
   * The `login` route handler. A body with neither field gets both
   * `required` messages; a token needs both fields present.
   */
  function HandleLogin(env: Env, db: Store, findFails: bool, request: Record): (reply: Reply)
    ensures "email" !in request && "password" !in request ==>
              reply == Respond(400, Messages.Required("Email") + ", " + Messages.Required("Mot de passe"))
    ensures reply.token.Some? ==> "email" in request && "password" in request
  {
    var form := ReadLoginForm(request);
    if "email" !in request && "password" !in request then
      assert form == LoginForm(None, None);
      LoginMissingFields(env, db, findFails, form);
      Login(env, db, findFails, form)
    else Login(env, db, findFails, form)
  }

  // ---------------------------------------------------------------------
  // Properties of register
  // ---------------------------------------------------------------------

  /** The handlers only ever see the trimmed body: trimming it beforehand changes nothing. */
  lemma HandlersReadTrimmedInput(request: Record)
    ensures ReadRegisterForm(TrimData(request)) == ReadRegisterForm(request)
    ensures ReadLoginForm(TrimData(request)) == ReadLoginForm(request)
  {
    TrimDataIdempotent(request);
  }

  /**
   * A missing, empty or falsy confirmation is refused first, whatever the
   * collection holds and whether the database is up: nothing is looked up.
   */
  lemma RegisterBlankConfirmation(env: Env, db: Store, faults: DbFaults, newId: Id, form: RegisterForm)
    requires !Truthy(form.confirmPassword)
    ensures Register(env, db, faults, newId, form)
            == Outcome(Respond(400, Messages.Required("Confirmer le mot de passe")), db)
  {}

  /** For a trimmed string the existence query looks up exactly that string. */
  lemma TrimmedEmailFilter(env: Env, db: Store, email: string)
    requires IsTrimmed(email)
    ensures EmailFilterHits(env, db, Some(Str(email))) <==> email in db
  {
    TrimFixedPoints(email);
  }

  /**
   * An email stored exactly as typed is refused with `userExists`, before
   * and regardless of the password comparison.
   */
  lemma RegisterExistingEmail(env: Env, db: Store, faults: DbFaults, newId: Id, form: RegisterForm, email: string)
    requires PresenceOf(form.confirmPassword).Filled?
    requires !faults.findFails
    requires form.email == Some(Str(email)) && IsTrimmed(email) && email in db
    ensures Register(env, db, faults, newId, form) == Outcome(Respond(400, Messages.UserExists), db)
  {
    TrimmedEmailFilter(env, db, email);
  }

  /**
   * The existence check uses the email as typed, but the collection holds
   * it lowercased: a case variant of a stored email passes the check,
   * reaches `save`, and ends in a 500 rather than `userExists`.
   */
  lemma RegisterCaseVariantFailsAtSave(env: Env, db: Store, faults: DbFaults, newId: Id, form: RegisterForm, email: string)
    requires PresenceOf(form.confirmPassword).Filled?
    requires form.password == form.confirmPassword
    requires !faults.findFails
    requires form.email == Some(Str(email)) && IsTrimmed(email)
    requires email !in db && EmailKey(env, email) in db
    ensures Register(env, db, faults, newId, form).reply.status == 500
    ensures Register(env, db, faults, newId, form).db == db
  {
    var confirm := PresenceOf(form.confirmPassword).s;
    assert form.confirmPassword == Some(Str(confirm)) && confirm != "";
    TrimmedEmailFilter(env, db, email);
    RegisterReachesSave(env, db, faults, newId, form, confirm, email);
  }

  /** A form that passes the three checks fails at `save` when its key is taken. */
  lemma RegisterReachesSave(env: Env, db: Store, faults: DbFaults, newId: Id, form: RegisterForm, confirm: string, email: string)
    requires form.confirmPassword == Some(Str(confirm)) && confirm != ""
    requires form.password == Some(Str(confirm))
    requires !faults.findFails
    requires form.email == Some(Str(email)) && !EmailFilterHits(env, db, form.email)
    requires EmailKey(env, email) in db
    ensures Register(env, db, faults, newId, form).reply.status == 500
    ensures Register(env, db, faults, newId, form).db == db
  {
    RegisterPastChecks(env, db, faults, newId, form, confirm);
    SaveRefusesStoredKey(env, db, faults.saveFails, newId, form, confirm, email);
  }

  /** Once the three checks pass, `register` is its save half. */
  lemma RegisterPastChecks(env: Env, db: Store, faults: DbFaults, newId: Id, form: RegisterForm, confirm: string)
    requires form.confirmPassword == Some(Str(confirm)) && confirm != ""
    requires !faults.findFails
    requires !EmailFilterHits(env, db, form.email)
    requires form.password == Some(Str(confirm))
    ensures Register(env, db, faults, newId, form) == SaveNewUser(env, db, faults.saveFails, newId, form, confirm)
  {
    assert PresenceOf(form.confirmPassword) == Filled(confirm);
  }

  /** The save half refuses a document whose lowercased email is already stored. */
  lemma SaveRefusesStoredKey(env: Env, db: Store, saveFails: bool, newId: Id, form: RegisterForm, password: string, email: string)
    requires form.email == Some(Str(email)) && EmailKey(env, email) in db
    ensures SaveNewUser(env, db, saveFails, newId, form, password).reply.status == 500
    ensures SaveNewUser(env, db, saveFails, newId, form, password).db == db
  {
    var built := NewUser(env, newId, form, password);
    if built.Ok? {
      assert built.value.email == EmailKey(env, email);
    }
  }

  /** Different passwords are refused with `confirmPasswordWrong` once the email check has passed. */
  lemma RegisterPasswordMismatch(env: Env, db: Store, faults: DbFaults, newId: Id, form: RegisterForm, confirm: string)
    requires form.confirmPassword == Some(Str(confirm)) && confirm != ""
    requires !faults.findFails
    requires !EmailFilterHits(env, db, form.email)
    requires form.password != Some(Str(confirm))
    ensures Register(env, db, faults, newId, form) == Outcome(Respond(400, Messages.ConfirmPasswordWrong), db)
  {}

  /** The string fields of a registration that can succeed. */
  predicate RegistrationFields(form: RegisterForm, firstName: string, lastName: string, email: string, password: string) {
    && form.firstName == Some(Str(firstName)) && firstName != ""
    && form.lastName == Some(Str(lastName)) && lastName != ""
    && form.email == Some(Str(email)) && IsTrimmed(email)
    && form.password == Some(Str(password))
    && form.confirmPassword == Some(Str(password)) && password != ""
  }

  /** The document `register` builds: capitalized names, lowercased email, plaintext password. */
  function Registrant(env: Env, newId: Id, firstName: string, lastName: string, email: string, password: string): User
    requires firstName != "" && lastName != ""
  {
    User(newId, Trim(Capitalize(env.upper, firstName)), Trim(Capitalize(env.upper, lastName)), EmailKey(env, email), password)
  }

  /** The document a successful registration stores: `Registrant` after the pre-save hook. */
  function Registered(env: Env, newId: Id, firstName: string, lastName: string, email: string, password: string): User
    requires firstName != "" && lastName != ""
  {
    PreSave(env.crypto, Document(Registrant(env, newId, firstName, lastName, email, password), true))
  }

  /**
   * The stored document: capitalized names, lowercased email, and a
   * password hash that `comparePassword` accepts for the plaintext.
   */
  lemma RegisteredDocument(env: Env, newId: Id, firstName: string, lastName: string, email: string, password: string)
    requires firstName != "" && lastName != ""
    ensures var u := Registered(env, newId, firstName, lastName, email, password);
            && u.id == newId
            && u.firstName == Trim(Capitalize(env.upper, firstName))
            && u.lastName == Trim(Capitalize(env.upper, lastName))
            && u.email == EmailKey(env, email)
            && u.password == HashPassword(env.crypto, password)
            && |u.password| == 64
            && ComparePassword(env.crypto, u, password)
  {}

  /**
   * A registration whose fields pass the schema, whose email is new in
   * both spellings and whose `_id` is unused adds exactly one document,
   * under the lowercased email. The reply greets the first name as typed
   * (trimmed, not capitalized).
   */
  lemma RegisterSucceeds(env: Env, db: Store, faults: DbFaults, newId: Id, form: RegisterForm,
                         firstName: string, lastName: string, email: string, password: string)
    requires RegistrationFields(form, firstName, lastName, email, password)
    requires !faults.findFails && !faults.saveFails
    requires email !in db && EmailKey(env, email) !in db && IdFree(db, newId)
    requires FieldsValid(env.validators, Registrant(env, newId, firstName, lastName, email, password))
    ensures Register(env, db, faults, newId, form)
            == Outcome(Respond(200, Welcome(firstName)),
                       db[EmailKey(env, email) := Registered(env, newId, firstName, lastName, email, password)])
  {
    TrimmedEmailFilter(env, db, email);
    RegisterPastChecks(env, db, faults, newId, form, password);
    SaveNewUserSucceeds(env, db, newId, form, firstName, lastName, email, password);
  }

  /** The save half on a well-formed registration: one new, hashed document and a greeting. */
  lemma SaveNewUserSucceeds(env: Env, db: Store, newId: Id, form: RegisterForm,
                            firstName: string, lastName: string, email: string, password: string)
    requires RegistrationFields(form, firstName, lastName, email, password)
    requires EmailKey(env, email) !in db && IdFree(db, newId)
    requires FieldsValid(env.validators, Registrant(env, newId, firstName, lastName, email, password))
    ensures SaveNewUser(env, db, false, newId, form, password)
            == Outcome(Respond(200, Welcome(firstName)),
                       db[EmailKey(env, email) := Registered(env, newId, firstName, lastName, email, password)])
  {
    var u := Registrant(env, newId, firstName, lastName, email, password);
    assert NewUser(env, newId, form, password) == Ok(u);
  }

  /** The converse: a 200 from `register` happens only under the conditions above. */
  lemma RegisterSuccessNeeds(env: Env, db: Store, faults: DbFaults, newId: Id, form: RegisterForm)
    requires TrimmedRegisterForm(form)
    requires Register(env, db, faults, newId, form).reply.status == 200
    ensures !faults.findFails && !faults.saveFails && IdFree(db, newId)
    ensures exists firstName, lastName, email, password ::
              && RegistrationFields(form, firstName, lastName, email, password)
              && email !in db && EmailKey(env, email) !in db
              && FieldsValid(env.validators, Registrant(env, newId, firstName, lastName, email, password))
  {
    RegisterOkPath(env, db, faults, newId, form);
    var password := PresenceOf(form.confirmPassword).s;
    SaveNewUserOkPath(env, db, faults.saveFails, newId, form, password);
    var email := form.email.value.s;
    TrimmedEmailFilter(env, db, email);
    assert NewUser(env, newId, form, password).value
           == Registrant(env, newId, form.firstName.value.s, form.lastName.value.s, email, password);
    assert RegistrationFields(form, form.firstName.value.s, form.lastName.value.s, email, password);
  }

  /** A 200 from `register` went through every check to the save half, which answered 200. */
  lemma RegisterOkPath(env: Env, db: Store, faults: DbFaults, newId: Id, form: RegisterForm)
    requires Register(env, db, faults, newId, form).reply.status == 200
    ensures PresenceOf(form.confirmPassword).Filled?
    ensures !faults.findFails && !EmailFilterHits(env, db, form.email)
    ensures form.password == form.confirmPassword
    ensures SaveNewUser(env, db, faults.saveFails, newId, form, PresenceOf(form.confirmPassword).s).reply.status == 200
  {}

  /** A 200 from the save half means a built, valid document with a fresh email and `_id`. */
  lemma SaveNewUserOkPath(env: Env, db: Store, saveFails: bool, newId: Id, form: RegisterForm, password: string)
    requires SaveNewUser(env, db, saveFails, newId, form, password).reply.status == 200
    ensures !saveFails && NewUser(env, newId, form, password).Ok?
    ensures var u := NewUser(env, newId, form, password).value;
            FieldsValid(env.validators, u) && u.email !in db && IdFree(db, newId)
  {}

  // ---------------------------------------------------------------------
  // Properties of login
  // ---------------------------------------------------------------------

  /**
   * Missing fields are reported together, email first, joined by ", ",
   * before the database is consulted.
   */
  lemma LoginMissingFields(env: Env, db: Store, findFails: bool, form: LoginForm)
    requires !PresenceOf(form.email).NotAString? && !PresenceOf(form.password).NotAString?
    ensures !Truthy(form.email) && !Truthy(form.password) ==>
              Login(env, db, findFails, form)
              == Respond(400, Messages.Required("Email") + ", " + Messages.Required("Mot de passe"))
    ensures !Truthy(form.email) && Truthy(form.password) ==>
              Login(env, db, findFails, form) == Respond(400, Messages.Required("Email"))
    ensures Truthy(form.email) && !Truthy(form.password) ==>
              Login(env, db, findFails, form) == Respond(400, Messages.Required("Mot de passe"))
  {
    var e := [Messages.Required("Email")];
    var p := [Messages.Required("Mot de passe")];
    assert Join(e + p, ", ") == Messages.Required("Email") + ", " + Messages.Required("Mot de passe") by {
      assert (e + p)[1..] == p;
    }
  }

  /**
   * Both credential failures carry the same message: an unknown email is
   * a 401, a wrong password a 400.
   */
  lemma LoginRejectsBadCredentials(env: Env, db: Store, form: LoginForm, email: string, password: string)
    requires form == LoginForm(Some(Str(email)), Some(Str(password))) && email != "" && password != ""
    ensures EmailKey(env, email) !in db ==>
              Login(env, db, false, form) == Respond(401, Messages.IncorrectCredentials)
    ensures EmailKey(env, email) in db && !ComparePassword(env.crypto, db[EmailKey(env, email)], password) ==>
              Login(env, db, false, form) == Respond(400, Messages.IncorrectCredentials)
  {
    LoginPastChecks(env, db, form, email, password);
  }

  /** With both fields present and the database reachable, `login` is its lookup half. */
  lemma LoginPastChecks(env: Env, db: Store, form: LoginForm, email: string, password: string)
    requires form == LoginForm(Some(Str(email)), Some(Str(password))) && email != "" && password != ""
    ensures Login(env, db, false, form) == Authenticate(env, db, email, password)
  {
    assert PresenceOf(form.email) == Filled(email);
    assert PresenceOf(form.password) == Filled(password);
  }

  /** The right password for a stored email yields a 200 and a token for that document's id. */
  lemma LoginSucceeds(env: Env, db: Store, form: LoginForm, email: string, password: string)
    requires form == LoginForm(Some(Str(email)), Some(Str(password))) && email != "" && password != ""
    requires EmailKey(env, email) in db && ComparePassword(env.crypto, db[EmailKey(env, email)], password)
    ensures Login(env, db, false, form)
            == Reply(200, Message(LoggedIn), Some(env.jwt.sign(Claims(db[EmailKey(env, email)].id))))
  {
    LoginPastChecks(env, db, form, email, password);
  }

  /**
   * A trimmed email that lowercasing leaves alone is its own key, so
   * `login` queries exactly the string typed.
   */
  lemma EmailKeyOfCanonical(env: Env, s: string)
    requires IsTrimmed(s)
    requires forall i :: 0 <= i < |s| ==> env.lower(s[i]) == s[i]
    ensures EmailKey(env, s) == s
  {
    assert LowerCase(env.lower, s) == s;
    TrimFixedPoints(s);
  }

  /** The empty email lowercases and trims to itself. */
  lemma EmailKeyOfEmpty(env: Env)
    ensures EmailKey(env, "") == ""
  {
    assert LowerCase(env.lower, "") == "";
    TrimFixedPoints("");
  }

  /**
   * Register, then log in with the same password and any spelling of the
   * email that lowercases to the stored one: the login succeeds with a
   * token for the new document's id.
   */
  lemma LoginAfterRegister(env: Env, db: Store, faults: DbFaults, newId: Id, form: RegisterForm,
                           firstName: string, lastName: string, email: string, password: string,
                           loginEmail: string)
    requires RegistrationFields(form, firstName, lastName, email, password)
    requires !faults.findFails && !faults.saveFails
    requires email !in db && EmailKey(env, email) !in db && IdFree(db, newId)
    requires FieldsValid(env.validators, Registrant(env, newId, firstName, lastName, email, password))
    requires EmailKey(env, loginEmail) == EmailKey(env, email)
    ensures Login(env, Register(env, db, faults, newId, form).db, false, LoginForm(Some(Str(loginEmail)), Some(Str(password))))
            == Reply(200, Message(LoggedIn), Some(env.jwt.sign(Claims(newId))))
  {
    RegisterSucceeds(env, db, faults, newId, form, firstName, lastName, email, password);
    RegisteredDocument(env, newId, firstName, lastName, email, password);
    EmailKeyOfEmpty(env);
    var stored := db[EmailKey(env, email) := Registered(env, newId, firstName, lastName, email, password)];
    LoginSucceeds(env, stored, LoginForm(Some(Str(loginEmail)), Some(Str(password))), loginEmail, password);
  }
}

=== FILE: decimal.dfy ===
/** Decimal rendering of non-negative integers, as a template literal `${n}` prints them. */
module Decimal {

  predicate IsDigit(c: char) {
    '0' <= c <= '9'
  }

  predicate AllDigits(s: string) {
    forall i :: 0 <= i < |s| ==> IsDigit(s[i])
  }

  function DigitChar(d: int): (c: char)
    requires 0 <= d < 10
    ensures IsDigit(c)
  {
    (d + '0' as int) as char
  }

  function DigitValue(c: char): (d: int)
    requires IsDigit(c)
    ensures 0 <= d < 10
  {
    c as int - '0' as int
  }

  /** The shortest decimal numeral of `n`: no leading zero unless `n` is 0. */
  function FromNat(n: nat): (s: string)
    ensures |s| > 0 && AllDigits(s)
    ensures |s| > 1 ==> s[0] != '0'
    decreases n
  {
    if n < 10 then [DigitChar(n)] else FromNat(n / 10) + [DigitChar(n % 10)]
  }

  /** The value of a numeral. */
  function ToNat(s: string): nat
    requires AllDigits(s)
  {
    if s == [] then 0 else ToNat(s[..|s| - 1]) * 10 + DigitValue(s[|s| - 1])
  }

  lemma {:induction false} ToNatFromNat(n: nat)
    ensures ToNat(FromNat(n)) == n
    decreases n
  {
    var s := FromNat(n);
    if n >= 10 {
      assert s[..|s| - 1] == FromNat(n / 10);
      ToNatFromNat(n / 10);
    }
  }

  /** Distinct numbers print differently. */
  lemma FromNatInjective(m: nat, n: nat)
    ensures FromNat(m) == FromNat(n) <==> m == n
  {
    if FromNat(m) == FromNat(n) {
      ToNatFromNat(m);
      ToNatFromNat(n);
    }
  }
}

=== FILE: messages.dfy ===
/**
 * The French messages of `validation/validationMessages.js`: four
 * templates parameterised by a field label (and a length bound) and five
 * constant messages.
 */
module Messages {
  import opened Decimal

  function Required(field: string): string {
    "Le champ " + field + " est requis"
  }

  function MinLength(field: string, min: nat): string {
    field + " doit contenir au moins " + FromNat(min) + " caractères"
  }

  function MaxLength(field: string, max: nat): string {
    field + " ne peut pas dépasser " + FromNat(max) + " caractères"
  }

  const NameFieldsSuffix: string :=
    " est invalide. Il doit contenir des lettres. Les traits d'union et apostrophes sont les seuls caractères spéciaux acceptés."

  function NameFields(field: string): string {
    field + NameFieldsSuffix
  }

  const InvalidEmail: string := "Veuillez entrer un email valide"
  const WeakPassword: string := "Le mot de passe doit contenir au moins 1 minuscule, 1 majuscule et 1 chiffre"
  const UserExists: string := "Cet utilisateur existe déjà. Veuillez entrer une nouvelle adresse mail"
  const ConfirmPasswordWrong: string := "Les 2 mots de passe ne correspondent pas. Veuillez réessayer"
  const IncorrectCredentials: string := "Identifiants incorrects. Veuillez réessayer"

  /** Removing a fixed suffix: equal strings with the same suffix have equal heads. */
  lemma CancelSuffix(a: string, b: string, suffix: string)
    requires a + suffix == b + suffix
    ensures a == b
  {
    assert a == (a + suffix)[..|a|];
    assert b == (b + suffix)[..|b|];
  }

  /** The digit run after a non-digit head cannot be shorter in one reading than in another. */
  lemma DigitRunNotShorter(a1: string, d1: string, a2: string, d2: string)
    requires a1 + d1 == a2 + d2
    requires |a1| > 0 && !IsDigit(a1[|a1| - 1])
    requires AllDigits(d1) && AllDigits(d2)
    ensures |d1| >= |d2|
  {
    if |d1| < |d2| {
      ConcatAt(a1, d1, |a1| - 1);
      ConcatAt(a2, d2, |a1| - 1);
      assert false;
    }
  }

  /** The character at index `i` of a concatenation. */
  lemma ConcatAt(a: string, b: string, i: int)
    ensures 0 <= i < |a| ==> (a + b)[i] == a[i]
    ensures |a| <= i < |a| + |b| ==> (a + b)[i] == b[i - |a|]
  {}

  /**
   * A string that ends in a run of digits preceded by a non-digit splits
   * in only one way into that head and that run.
   */
  lemma DigitSuffixSplit(a1: string, d1: string, a2: string, d2: string)
    requires a1 + d1 == a2 + d2
    requires |a1| > 0 && !IsDigit(a1[|a1| - 1])
    requires |a2| > 0 && !IsDigit(a2[|a2| - 1])
    requires AllDigits(d1) && AllDigits(d2)
    ensures a1 == a2 && d1 == d2
  {
    DigitRunNotShorter(a1, d1, a2, d2);
    DigitRunNotShorter(a2, d2, a1, d1);
    var x := a1 + d1;
    assert a1 == x[..|a1|];
    assert a2 == (a2 + d2)[..|a2|];
    assert d1 == x[|a1|..];
    assert d2 == (a2 + d2)[|a2|..];
  }

  /** Distinct field labels give distinct `required` messages. */
  lemma RequiredInjective(f1: string, f2: string)
    ensures Required(f1) == Required(f2) <==> f1 == f2
  {
    if Required(f1) == Required(f2) {
      assert "Le champ " + f1 + " est requis" == "Le champ " + (f1 + " est requis");
      assert "Le champ " + f2 + " est requis" == "Le champ " + (f2 + " est requis");
      assert f1 + " est requis" == Required(f1)[9..];
      assert f2 + " est requis" == Required(f2)[9..];
      CancelSuffix(f1, f2, " est requis");
    }
  }

  /** A length message names one field label and one bound, read back from the message. */
  lemma BoundMessageSplit(f1: string, n1: nat, f2: string, n2: nat, middle: string)
    requires |middle| > 0 && middle[|middle| - 1] == ' '
    requires f1 + middle + FromNat(n1) + " caractères" == f2 + middle + FromNat(n2) + " caractères"
    ensures f1 == f2 && n1 == n2
  {
    CancelSuffix(f1 + middle + FromNat(n1), f2 + middle + FromNat(n2), " caractères");
    DigitSuffixSplit(f1 + middle, FromNat(n1), f2 + middle, FromNat(n2));
    CancelSuffix(f1, f2, middle);
    FromNatInjective(n1, n2);
  }

  lemma MinLengthInjective(f1: string, n1: nat, f2: string, n2: nat)
    ensures MinLength(f1, n1) == MinLength(f2, n2) <==> f1 == f2 && n1 == n2
  {
    if MinLength(f1, n1) == MinLength(f2, n2) {
      BoundMessageSplit(f1, n1, f2, n2, " doit contenir au moins ");
    }
  }

  lemma MaxLengthInjective(f1: string, n1: nat, f2: string, n2: nat)
    ensures MaxLength(f1, n1) == MaxLength(f2, n2) <==> f1 == f2 && n1 == n2
  {
    if MaxLength(f1, n1) == MaxLength(f2, n2) {
      BoundMessageSplit(f1, n1, f2, n2, " ne peut pas dépasser ");
    }
  }

  /** The invalid-name message is the label followed by one fixed suffix, so labels are recoverable. */
  lemma NameFieldsInjective(f1: string, f2: string)
    ensures NameFields(f1) == NameFields(f2) <==> f1 == f2
  {
    if NameFields(f1) == NameFields(f2) {
      CancelSuffix(f1, f2, NameFieldsSuffix);
    }
  }

  /** The five constant messages are pairwise distinct. */
  lemma ConstantMessagesDistinct()
    ensures InvalidEmail != WeakPassword && InvalidEmail != UserExists
    ensures InvalidEmail != ConfirmPasswordWrong && InvalidEmail != IncorrectCredentials
    ensures WeakPassword != UserExists && WeakPassword != ConfirmPasswordWrong
    ensures WeakPassword != IncorrectCredentials
    ensures UserExists != ConfirmPasswordWrong && UserExists != IncorrectCredentials
    ensures ConfirmPasswordWrong != IncorrectCredentials
  {
  }
}

=== FILE: middleware.dfy ===
/**
 * The `verifyToken` gate of `middlewares/authMiddlewares.js`: it reads the
 * token kept in the session and either answers the request itself or
 * attaches the verified user id and hands over to the next handler.
 */
module AuthMiddleware {
  import opened Wrappers
  import opened Values
  import opened UserModel
  import opened AuthController

  /**
   * What the gate does to one request: the reply it sends, if any; the
   * `req.userId` it sets, if any; how many times it calls `next()`.
   */
  datatype GateEffect = GateEffect(response: Option<Reply>, userId: Option<Id>, nextCalls: nat)

  const AuthenticationRequired: string := "Veuillez vous authentifier"
  const ReauthenticationRequired: string := "Veuillez vous reconnecter"

  /**
   * `verifyToken(req, res, next)` on the session `req.session`. A falsy
   * token is a 401. `jwt.verify` reports a non-string token, a bad
   * signature and an expired token through its callback's `error`, which
   * is a 403 with an `error` body. Otherwise `decoded.id` is attached.
   */
  function VerifyToken(jwt: Jwt, session: Record): (effect: GateEffect)
    ensures || (effect.response.Some? && effect.nextCalls == 0 && effect.userId.None?)
            || (effect.response.None? && effect.nextCalls == 1 && effect.userId.Some?)
    ensures effect.response == Some(Respond(401, AuthenticationRequired))
            <==> !Truthy(Get(session, "token"))
    ensures effect.response == Some(Reply(403, Error(ReauthenticationRequired), None))
            <==> && Truthy(Get(session, "token"))
                 && (!Get(session, "token").value.Str? || jwt.verify(Get(session, "token").value.s).None?)
    ensures effect.nextCalls == 1 ==>
              && Get(session, "token").value.Str?
              && jwt.verify(Get(session, "token").value.s) == Some(Claims(effect.userId.value))
  {
    var token := Get(session, "token");
    if !Truthy(token) then GateEffect(Some(Respond(401, AuthenticationRequired)), None, 0)
    else
      var decoded := if token.value.Str? then jwt.verify(token.value.s) else None;
      if decoded.None? then GateEffect(Some(Reply(403, Error(ReauthenticationRequired), None)), None, 0)
      else GateEffect(None, Some(decoded.value.id), 1)
  }

  /** A session holding a token signed for `claims` gets through carrying `claims.id`. */
  lemma SignedTokenPassesGate(jwt: Jwt, session: Record, claims: Claims)
    requires SoundJwt(jwt)
    requires Get(session, "token") == Some(Str(jwt.sign(claims)))
    ensures VerifyToken(jwt, session) == GateEffect(None, Some(claims.id), 1)
  {
    assert jwt.sign(claims) != "" && jwt.verify(jwt.sign(claims)) == Some(claims);
  }

  /**
   * A token issued by a successful `login`, kept in the session, lets the
   * request through with exactly the id of the user who logged in.
   */
  lemma LoginTokenPassesGate(env: Env, db: Store, form: LoginForm, email: string, password: string,
                             token: string, session: Record)
    requires SoundJwt(env.jwt)
    requires form == LoginForm(Some(Str(email)), Some(Str(password))) && email != "" && password != ""
    requires EmailKey(env, email) in db && ComparePassword(env.crypto, db[EmailKey(env, email)], password)
    requires Login(env, db, false, form).token == Some(token)
    requires Get(session, "token") == Some(Str(token))
    ensures VerifyToken(env.jwt, session) == GateEffect(None, Some(db[EmailKey(env, email)].id), 1)
  {
    LoginSucceeds(env, db, form, email, password);
    SignedTokenPassesGate(env.jwt, session, Claims(db[EmailKey(env, email)].id));
  }

  /**
   * End to end: register, log in with the same password and any spelling
   * of the email that lowercases to the stored one, keep the token in the
   * session, and the gate attaches the new document's `_id`.
   */
  lemma RegisteredUserPassesGate(env: Env, db: Store, faults: DbFaults, newId: Id, form: RegisterForm,
                                 firstName: string, lastName: string, email: string, password: string,
                                 loginEmail: string, token: string, session: Record)
    requires SoundJwt(env.jwt)
    requires RegistrationFields(form, firstName, lastName, email, password)
    requires !faults.findFails && !faults.saveFails
    requires email !in db && EmailKey(env, email) !in db && IdFree(db, newId)
    requires FieldsValid(env.validators, Registrant(env, newId, firstName, lastName, email, password))
    requires EmailKey(env, loginEmail) == EmailKey(env, email)
    requires Login(env, Register(env, db, faults, newId, form).db, false,
                   LoginForm(Some(Str(loginEmail)), Some(Str(password)))).token == Some(token)
    requires Get(session, "token") == Some(Str(token))
    ensures VerifyToken(env.jwt, session) == GateEffect(None, Some(newId), 1)
  {
    LoginAfterRegister(env, db, faults, newId, form, firstName, lastName, email, password, loginEmail);
    assert token == env.jwt.sign(Claims(newId));
    SignedTokenPassesGate(env.jwt, session, Claims(newId));
  }
}

=== FILE: rules.dfy ===
/**
 * The two regular expressions of `validation/validationRules.js`, read as
 * JavaScript reads them without the `u` flag: the pattern walks UTF-16
 * code units, `.` is any code unit but a line terminator, and `$` without
 * the `m` flag matches only at the very end. An astral character is two
 * surrogate code units; neither is in any class of these patterns nor a
 * line terminator, so every class test reads the same on characters, and
 * only the counted repetition `{6,255}` needs the code-unit length.
 */
module Rules {
  import opened Text

  // ---------------------------------------------------------------------
  // nameFields: /^[a-zA-ZÀ-ÿ][a-zA-ZÀ-ÿ'-]*[a-zA-ZÀ-ÿ]$/
  // ---------------------------------------------------------------------

  /**
   * The class `[a-zA-ZÀ-ÿ]`. The range À-ÿ is U+00C0..U+00FF, which also
   * holds the multiplication sign U+00D7 and the division sign U+00F7.
   */
  predicate IsNameLetter(c: char) {
    ('a' <= c <= 'z') || ('A' <= c <= 'Z') || ('\U{C0}' <= c <= '\U{FF}')
  }

  /** The class `[a-zA-ZÀ-ÿ'-]`: a letter, an apostrophe or a hyphen. */
  predicate IsNameChar(c: char) {
    IsNameLetter(c) || c == '\'' || c == '-'
  }

  /** The language of the name pattern: a letter, any name characters, a letter. */
  predicate NameShape(s: string) {
    && |s| >= 2
    && IsNameLetter(s[0])
    && IsNameLetter(s[|s| - 1])
    && forall i :: 0 <= i < |s| ==> IsNameChar(s[i])
  }

  /** A prefix the pattern can still complete: a letter followed by name characters. */
  predicate ViablePrefix(p: string) {
    |p| >= 1 && IsNameLetter(p[0]) && forall i :: 0 <= i < |p| ==> IsNameChar(p[i])
  }

  /** Where a left-to-right scan of the name pattern stands after some prefix. */
  datatype ScanState =
    | Start           // nothing read
    | FirstLetter     // exactly the leading letter read
    | AfterLetter     // two or more characters read, the last one a letter
    | AfterMark       // two or more characters read, the last one `'` or `-`
    | Failed          // no extension of the prefix can match

  /**
   * `validationRules.nameFields.test(s)`, as a one-pass scan that runs the
   * pattern's automaton over the characters of `s`.
   */
  method TestNameFields(s: string) returns (accepted: bool)
    ensures accepted <==> NameShape(s)
  {
    var state := Start;
    var i := 0;
    while i < |s|
      invariant 0 <= i <= |s|
      invariant state == Start <==> i == 0
      invariant state == FirstLetter <==> i == 1 && ViablePrefix(s[..i])
      invariant state == AfterLetter <==> i >= 2 && ViablePrefix(s[..i]) && IsNameLetter(s[i - 1])
      invariant state == AfterMark <==> i >= 2 && ViablePrefix(s[..i]) && !IsNameLetter(s[i - 1])
    {
      var c := s[i];
      assert s[..i + 1] == s[..i] + [c];
      state := match state
        case Start => if IsNameLetter(c) then FirstLetter else Failed
        case Failed => Failed
        case _ => if IsNameLetter(c) then AfterLetter else if IsNameChar(c) then AfterMark else Failed;
      i := i + 1;
    }
    assert s[..|s|] == s;
    accepted := state == AfterLetter;
  }

  /** An accepted name neither starts nor ends with a hyphen or an apostrophe. */
  lemma NameEndsAreLetters(s: string)
    requires NameShape(s)
    ensures s[0] != '-' && s[0] != '\'' && s[|s| - 1] != '-' && s[|s| - 1] != '\''
  {}

  /** The letter range admits the arithmetic signs × and ÷ as letters. */
  lemma NameShapeAdmitsArithmeticSigns()
    ensures NameShape("A\U{D7}\U{F7}z")
    ensures !NameShape("A+z")
  {
    assert "A+z"[1] == '+';
  }

  /**
   * A name the pattern accepts holds no astral character (its surrogates
   * are outside the class), so its `length` is its number of characters.
   */
  lemma NameShapeIsBmp(s: string)
    requires NameShape(s)
    ensures CodeUnits(s) == |s|
  {
    CodeUnitsIsLengthIff(s);
  }

  // ---------------------------------------------------------------------
  // password: /^(?!.*[<>{}()\\`]).{6,255}$/
  // ---------------------------------------------------------------------

  /** A line terminator: what `.` does not match. */
  predicate IsLineTerminator(c: char) {
    c == '\n' || c == '\r' || c == '\U{2028}' || c == '\U{2029}'
  }

  /** The class `[<>{}()\\`]`. */
  predicate IsForbiddenInPassword(c: char) {
    c == '<' || c == '>' || c == '{' || c == '}' || c == '(' || c == ')' || c == '\\' || c == '`'
  }

  /**
   * `(?!.*[<>{}()\\`])` at the start fails when some forbidden character
   * is reachable by `.*`, that is, sits before the first line terminator.
   */
  predicate LookaheadFinds(s: string) {
    exists k :: 0 <= k < |s| && IsForbiddenInPassword(s[k])
                && forall j :: 0 <= j < k ==> !IsLineTerminator(s[j])
  }

  /** `.{6,255}$`: between 6 and 255 code units, none a line terminator. */
  predicate DotsToEnd(s: string) {
    6 <= CodeUnits(s) <= 255 && forall k :: 0 <= k < |s| ==> !IsLineTerminator(s[k])
  }

  /** `validationRules.password.test(s)`, anchored at index 0. */
  predicate PasswordRule(s: string) {
    !LookaheadFinds(s) && DotsToEnd(s)
  }

  /**
   * The rule in plain terms: the lookahead only scans the first line, but
   * a line terminator fails `.{6,255}$` anyway, so the rule accepts exactly
   * the 6..255-long strings with no forbidden character and no line break.
   */
  lemma PasswordRuleIff(s: string)
    ensures PasswordRule(s) <==>
              && 6 <= CodeUnits(s) <= 255
              && (forall k :: 0 <= k < |s| ==> !IsForbiddenInPassword(s[k]))
              && (forall k :: 0 <= k < |s| ==> !IsLineTerminator(s[k]))
  {
    if DotsToEnd(s) && !LookaheadFinds(s) {
      forall k | 0 <= k < |s|
        ensures !IsForbiddenInPassword(s[k])
      {
        assert forall j :: 0 <= j < k ==> !IsLineTerminator(s[j]);
      }
    }
  }

  /** Inserting a forbidden character anywhere into a password makes the rule reject it. */
  lemma ForbiddenInsertionRejected(s: string, i: int, c: char)
    requires 0 <= i <= |s|
    requires IsForbiddenInPassword(c)
    ensures !PasswordRule(s[..i] + [c] + s[i..])
  {
    var t := s[..i] + [c] + s[i..];
    assert t[i] == c;
    PasswordRuleIff(t);
  }

  /**
   * Three emoji are six code units, so the rule accepts them although
   * they are only three characters.
   */
  lemma PasswordRuleCountsCodeUnits()
    ensures PasswordRule("\U{1F600}\U{1F600}\U{1F600}")
    ensures !PasswordRule("abcde")
  {
    var s := "\U{1F600}\U{1F600}\U{1F600}";
    assert CodeUnits(s[2..]) == 2;
    assert CodeUnits(s[1..]) == 4;
    assert CodeUnits(s) == 6;
    assert CodeUnits("abcde") == 5 by {
      assert "abcde"[1..] == "bcde" && "bcde"[1..] == "cde" && "cde"[1..] == "de" && "de"[1..] == "e";
    }
  }
}

=== FILE: text.dfy ===
/**
 * `String.prototype.trim` and first-occurrence `String.prototype.replace`,
 * the two string builtins the utilities rely on, and the `length` of a
 * JavaScript string. A `char` is a Unicode scalar value; JavaScript stores
 * one above U+FFFF as a surrogate pair, two UTF-16 code units.
 */
module Text {

  // ---------------------------------------------------------------------
  // length
  // ---------------------------------------------------------------------

  /** A character outside the Basic Multilingual Plane: a surrogate pair in UTF-16. */
  predicate IsAstral(c: char) {
    c as int > 0xFFFF
  }

  /** `s.length`: the number of UTF-16 code units, two for each astral character. */
  function CodeUnits(s: string): (n: nat)
    ensures |s| <= n <= 2 * |s|
  {
    if s == [] then 0 else (if IsAstral(s[0]) then 2 else 1) + CodeUnits(s[1..])
  }

  /** `s.length` counts characters exactly when no character lies outside the BMP. */
  lemma {:induction false} CodeUnitsIsLengthIff(s: string)
    ensures CodeUnits(s) == |s| <==> forall k :: 0 <= k < |s| ==> !IsAstral(s[k])
  {
    if s != [] {
      CodeUnitsIsLengthIff(s[1..]);
      assert forall k :: 1 <= k < |s| ==> s[k] == s[1..][k - 1];
    }
  }

  // ---------------------------------------------------------------------
  // trim
  // ---------------------------------------------------------------------

  /**
   * The code points `trim` strips: ECMAScript WhiteSpace (TAB, VT, FF,
   * SPACE, NBSP, ZWNBSP and the Zs category) and LineTerminator (LF, CR,
   * LS, PS), sections 12.2 and 12.3 of ECMA-262.
   */
  predicate IsTrimmable(c: char) {
    || c == '\t' || c == '\U{B}' || c == '\U{C}' || c == ' '
    || c == '\U{A0}' || c == '\U{FEFF}' || c == '\U{1680}'
    || ('\U{2000}' <= c <= '\U{200A}')
    || c == '\U{202F}' || c == '\U{205F}' || c == '\U{3000}'
    || c == '\n' || c == '\r' || c == '\U{2028}' || c == '\U{2029}'
  }

  predicate AllTrimmable(s: string) {
    forall k :: 0 <= k < |s| ==> IsTrimmable(s[k])
  }

  /** Neither end of `s` is whitespace. */
  predicate IsTrimmed(s: string) {
    s == [] || (!IsTrimmable(s[0]) && !IsTrimmable(s[|s| - 1]))
  }

  /** Drops leading whitespace: the result is the longest suffix that starts with a non-blank. */
  function TrimStart(s: string): (r: string)
    ensures |r| <= |s| && r == s[|s| - |r|..]
    ensures AllTrimmable(s[..|s| - |r|])
    ensures r == [] || !IsTrimmable(r[0])
  {
    if |s| > 0 && IsTrimmable(s[0]) then
      var r := TrimStart(s[1..]);
      assert s[..|s| - |r|] == [s[0]] + s[1..][..|s| - 1 - |r|];
      r
    else s
  }

  /** Drops trailing whitespace: the result is the longest prefix that ends with a non-blank. */
  function TrimEnd(s: string): (r: string)
    ensures |r| <= |s| && r == s[..|r|]
    ensures AllTrimmable(s[|r|..])
    ensures r == [] || !IsTrimmable(r[|r| - 1])
  {
    if |s| > 0 && IsTrimmable(s[|s| - 1]) then
      var init := s[..|s| - 1];
      var r := TrimEnd(init);
      assert init[..|r|] == s[..|r|];
      assert s[|r|..] == init[|r|..] + [s[|s| - 1]];
      r
    else s
  }

  /**
   * `s.trim()`: the infix of `s` left once the blank prefix and suffix are
   * cut off. Both ends of the result are non-blank.
   */
  function Trim(s: string): (r: string)
    ensures IsTrimmed(r)
    ensures exists i :: 0 <= i <= |s| - |r| && r == s[i..i + |r|]
                        && AllTrimmable(s[..i]) && AllTrimmable(s[i + |r|..])
  {
    var t := TrimStart(s);
    var r := TrimEnd(t);
    var i := |s| - |t|;
    assert r == s[i..i + |r|] by {
      assert r == t[..|r|];
      assert t == s[i..];
    }
    assert s[i + |r|..] == t[|r|..];
    r
  }

  /** `trim` changes exactly the strings that have a blank end. */
  lemma TrimFixedPoints(s: string)
    ensures Trim(s) == s <==> IsTrimmed(s)
  {
    if IsTrimmed(s) {
      assert TrimStart(s) == s;
      assert TrimEnd(s) == s;
    }
  }

  lemma TrimIdempotent(s: string)
    ensures Trim(Trim(s)) == Trim(s)
  {
    TrimFixedPoints(Trim(s));
  }

  /** `pat` occurs in `s` starting at index `k`. */
  predicate OccursAt(s: string, pat: string, k: int) {
    0 <= k <= |s| - |pat| && s[k..k + |pat|] == pat
  }

  /** The index of the first occurrence of `pat` in `s`, as `String.prototype.indexOf`. */
  function IndexOf(s: string, pat: string): (r: int)
    ensures r == -1 || OccursAt(s, pat, r)
    ensures forall k :: OccursAt(s, pat, k) ==> 0 <= r <= k
    decreases |s|
  {
    if |pat| > |s| then -1
    else if s[..|pat|] == pat then 0
    else
      var r := IndexOf(s[1..], pat);
      assert forall k {:trigger OccursAt(s, pat, k)} :: 1 <= k ==> (OccursAt(s, pat, k) <==> OccursAt(s[1..], pat, k - 1)) by {
        forall k | 1 <= k && OccursAt(s, pat, k) ensures OccursAt(s[1..], pat, k - 1) {
          assert s[1..][k - 1..k - 1 + |pat|] == s[k..k + |pat|];
        }
        forall k | 1 <= k && OccursAt(s[1..], pat, k - 1) ensures OccursAt(s, pat, k) {
          assert s[1..][k - 1..k - 1 + |pat|] == s[k..k + |pat|];
        }
      }
      if r == -1 then -1 else r + 1
  }

  /** `i` is where `indexOf` finds `pat`: an occurrence with none before it. */
  predicate FirstOccurrence(s: string, pat: string, i: int) {
    OccursAt(s, pat, i) && forall k :: 0 <= k < i ==> !OccursAt(s, pat, k)
  }

  /**
   * `s.replace(pat, rep)` with a string pattern: only the first occurrence
   * is replaced. The replacement is taken literally, which is what
   * JavaScript does for every replacement without a `$` pattern.
   */
  function ReplaceFirst(s: string, pat: string, rep: string): (r: string)
    ensures (forall k :: !OccursAt(s, pat, k)) ==> r == s
    ensures forall i :: FirstOccurrence(s, pat, i) ==>
              && |r| == |s| - |pat| + |rep|
              && r[..i] == s[..i]
              && r[i..i + |rep|] == rep
              && r[i + |rep|..] == s[i + |pat|..]
  {
    var i := IndexOf(s, pat);
    if i == -1 then s else s[..i] + rep + s[i + |pat|..]
  }
}

=== FILE: user.dfy ===
/**
 * The `User` model of `Models/User.js`: per-field schema validators, the
 * pre-save hook that hashes the password, `comparePassword`, `createJWT`,
 * and the users collection with its unique email index.
 */
module UserModel {
  import opened Wrappers
  import opened Text
  import opened Utils
  import opened Rules
  import Messages

  /** The hex string form of a document's `_id`, as it appears in a token payload. */
  type Id = string

  /** A user document. `password` is plaintext before the save hook runs and a digest after. */
  datatype User = User(id: Id, firstName: string, lastName: string, email: string, password: string)

  // ---------------------------------------------------------------------
  // Schema validation
  // ---------------------------------------------------------------------

  datatype Path = FirstName | LastName | Email | Password

  /** One entry of a failed validation: the path and the schema's message for it. */
  datatype ValidatorError = ValidatorError(path: Path, message: string)

  /**
   * The `validator` package calls the schema makes. `isStrongPassword` is
   * called with `returnScore: true`, so it yields a score; the schema
   * accepts whenever that score is truthy, which is what
   * `strongPasswordPasses` stands for. It is not the lower/upper/digit policy.
   */
  datatype Validators = Validators(isEmail: string -> bool, strongPasswordPasses: string -> bool)

  // `minlength` and `maxlength` compare the string's `length`, in UTF-16 code units.

  predicate NameValid(v: string) {
    v != "" && 2 <= CodeUnits(v) <= 255 && NameShape(v)
  }

  predicate EmailValid(val: Validators, v: string) {
    v != "" && CodeUnits(v) <= 255 && val.isEmail(v)
  }

  predicate PasswordValid(val: Validators, v: string) {
    v != "" && 6 <= CodeUnits(v) <= 255 && val.strongPasswordPasses(v)
  }

  /**
   * The first failing validator of a name path, in the order the schema
   * declares them: `required`, `minlength`, `maxlength`, `validate`.
   */
  function NameError(v: string, requiredLabel: string, field: string): (r: Option<string>)
    ensures r.None? <==> NameValid(v)
    ensures v == "" ==> r == Some(Messages.Required(requiredLabel))
    ensures CodeUnits(v) == 1 ==> r == Some(Messages.MinLength(field, 2))
    ensures CodeUnits(v) > 255 ==> r == Some(Messages.MaxLength(field, 255))
    ensures 2 <= CodeUnits(v) <= 255 && !NameShape(v) ==> r == Some(Messages.NameFields(field))
  {
    if v == "" then Some(Messages.Required(requiredLabel))
    else if CodeUnits(v) < 2 then Some(Messages.MinLength(field, 2))
    else if CodeUnits(v) > 255 then Some(Messages.MaxLength(field, 255))
    else if !NameShape(v) then Some(Messages.NameFields(field))
    else None
  }

  function FirstNameError(v: string): Option<string> {
    NameError(v, "Prénom", "Le prénom")
  }

  function LastNameError(v: string): Option<string> {
    NameError(v, "Nom de famille", "Le nom de famille")
  }

  /** The email path: `required`, `maxlength`, `validate` (`isEmail`). */
  function EmailError(val: Validators, v: string): (r: Option<string>)
    ensures r.None? <==> EmailValid(val, v)
    ensures v == "" ==> r == Some(Messages.Required("L'email"))
    ensures CodeUnits(v) > 255 ==> r == Some(Messages.MaxLength("L'email", 255))
    ensures v != "" && CodeUnits(v) <= 255 && !val.isEmail(v) ==> r == Some(Messages.InvalidEmail)
  {
    if v == "" then Some(Messages.Required("L'email"))
    else if CodeUnits(v) > 255 then Some(Messages.MaxLength("L'email", 255))
    else if !val.isEmail(v) then Some(Messages.InvalidEmail)
    else None
  }

  /** The password path: `required`, `minlength`, `maxlength`, `validate` (`isStrongPassword`). */
  function PasswordError(val: Validators, v: string): (r: Option<string>)
    ensures r.None? <==> PasswordValid(val, v)
    ensures v == "" ==> r == Some(Messages.Required("Mot de passe"))
    ensures v != "" && CodeUnits(v) < 6 ==> r == Some(Messages.MinLength("Le mot de passe", 6))
    ensures CodeUnits(v) > 255 ==> r == Some(Messages.MaxLength("Le mot de passe", 255))
    ensures 6 <= CodeUnits(v) <= 255 && !val.strongPasswordPasses(v) ==> r == Some(Messages.WeakPassword)
  {
    if v == "" then Some(Messages.Required("Mot de passe"))
    else if CodeUnits(v) < 6 then Some(Messages.MinLength("Le mot de passe", 6))
    else if CodeUnits(v) > 255 then Some(Messages.MaxLength("Le mot de passe", 255))
    else if !val.strongPasswordPasses(v) then Some(Messages.WeakPassword)
    else None
  }

  /**
   * The length validators count code units: three emoji pass the
   * password's minimum of 6 and go on to the strength check, and a single
   * emoji is a two-unit first name that only the pattern refuses.
   */
  lemma LengthsCountCodeUnits(val: Validators)
    ensures var p := "\U{1F600}\U{1F600}\U{1F600}";
            PasswordError(val, p) == (if val.strongPasswordPasses(p) then None else Some(Messages.WeakPassword))
    ensures FirstNameError("\U{1F600}") == Some(Messages.NameFields("Le prénom"))
  {
    var p := "\U{1F600}\U{1F600}\U{1F600}";
    assert CodeUnits(p[2..]) == 2;
    assert CodeUnits(p[1..]) == 4;
    assert CodeUnits(p) == 6;
    assert CodeUnits("\U{1F600}") == 2;
    assert !IsNameChar("\U{1F600}"[0]);
  }

  predicate FieldsValid(val: Validators, u: User) {
    NameValid(u.firstName) && NameValid(u.lastName) && EmailValid(val, u.email) && PasswordValid(val, u.password)
  }

  function Report(path: Path, e: Option<string>): seq<ValidatorError> {
    if e.Some? then [ValidatorError(path, e.value)] else []
  }

  /**
   * `doc.validate()`: every path is checked, and each failing path
   * contributes the message of its first failing validator.
   */
  function Validate(val: Validators, u: User): (errors: seq<ValidatorError>)
    ensures errors == [] <==> FieldsValid(val, u)
    ensures |errors| <= 4
    ensures forall i, j :: 0 <= i < j < |errors| ==> errors[i].path != errors[j].path
  {
    Report(FirstName, FirstNameError(u.firstName))
    + Report(LastName, LastNameError(u.lastName))
    + Report(Email, EmailError(val, u.email))
    + Report(Password, PasswordError(val, u.password))
  }

  // ---------------------------------------------------------------------
  // Pre-save hook and comparePassword
  // ---------------------------------------------------------------------

  /** A document about to be saved, with Mongoose's record of whether `password` was modified. */
  datatype Document = Document(user: User, passwordModified: bool)

  /**
   * `comparePassword(input)`: hash the input and compare it with the stored
   * digest. Only a stored 64-digit hex digest that decodes to the input's
   * MAC is accepted.
   */
  function ComparePassword(c: Crypto, u: User, input: string): (accepted: bool)
    ensures accepted ==> |u.password| == 64 && IsHexString(u.password)
    ensures accepted ==> Unhex(u.password) == c.hmacSha256(c.secret, input)
  {
    UnhexHex(c.hmacSha256(c.secret, input));
    HashPassword(c, input) == u.password
  }

  /**
   * The `pre('save')` hook: a modified password is replaced by its digest;
   * an unmodified one, and every other field, is left alone.
   */
  function PreSave(c: Crypto, d: Document): (saved: User)
    ensures saved.(password := d.user.password) == d.user
    ensures d.passwordModified ==> |saved.password| == 64 && IsHexString(saved.password)
    ensures d.passwordModified ==> ComparePassword(c, saved, d.user.password)
    ensures !d.passwordModified ==> saved == d.user
  {
    if d.passwordModified then d.user.(password := HashPassword(c, d.user.password)) else d.user
  }

  /**
   * After the hook has hashed plaintext `p`, `comparePassword` accepts
   * exactly the inputs whose MAC equals the MAC of `p`, `p` among them.
   */
  lemma ComparePasswordAfterSave(c: Crypto, u: User, input: string)
    ensures ComparePassword(c, PreSave(c, Document(u, true)), input)
            <==> c.hmacSha256(c.secret, input) == c.hmacSha256(c.secret, u.password)
    ensures ComparePassword(c, PreSave(c, Document(u, true)), u.password)
  {
    HashPasswordEqualIff(c, input, u.password);
  }

  // ---------------------------------------------------------------------
  // createJWT
  // ---------------------------------------------------------------------

  /** The payload `createJWT` signs. */
  datatype Claims = Claims(id: Id)

  /**
   * `jwt.sign` and `jwt.verify` under the process's secret and lifetime.
   * `verify` yields the decoded payload, or `None` for a malformed, forged
   * or expired token; the clock is inside the oracle.
   */
  datatype Jwt = Jwt(sign: Claims -> string, verify: string -> Option<Claims>)

  /** A token signer whose tokens are non-empty and verify back to their payload (within their lifetime). */
  ghost predicate SoundJwt(jwt: Jwt) {
    forall c :: jwt.sign(c) != "" && jwt.verify(jwt.sign(c)) == Some(c)
  }

  /**
   * `user.createJWT()`: a token over a payload holding just the user's id.
   * With a sound signer the token is truthy and verifies to that id.
   */
  function CreateJwt(j: Jwt, u: User): (token: string)
    ensures forall other: User :: other.id == u.id ==> j.sign(Claims(other.id)) == token
    ensures SoundJwt(j) ==> token != "" && j.verify(token) == Some(Claims(u.id))
  {
    j.sign(Claims(u.id))
  }

  // ---------------------------------------------------------------------
  // The users collection
  // ---------------------------------------------------------------------

  /** The users collection, keyed by the `unique: true` email index. */
  type Store = map<string, User>

  predicate IdFree(db: Store, id: Id) {
    forall e :: e in db ==> db[e].id != id
  }

  /** Each document sits under its own email, and no two share an `_id`. */
  predicate WellFormed(db: Store) {
    && (forall e :: e in db ==> db[e].email == e)
    && (forall e1, e2 :: e1 in db && e2 in db && db[e1].id == db[e2].id ==> e1 == e2)
  }

  /** Why a database operation or a handler threw. */
  datatype Fault =
    | TypeError                                   // a property or method of a non-string was used
    | ValidationFailed(errors: seq<ValidatorError>) // `save` rejected the document
    | DuplicateKey                                // a unique index (email or `_id`) was hit
    | DatabaseError                               // the database could not serve the request

  /**
   * `doc.save()` on a new document: validation first, then the pre-save
   * hook (a new document's password counts as modified), then the insert,
   * which the unique indexes can refuse. `insertFails` is an unavailable database.
   */
  function Save(val: Validators, c: Crypto, db: Store, u: User, insertFails: bool): (r: Result<Store, Fault>)
    ensures r.Ok? <==> FieldsValid(val, u) && !insertFails && u.email !in db && IdFree(db, u.id)
    ensures !FieldsValid(val, u) ==> r == Err(ValidationFailed(Validate(val, u)))
    ensures FieldsValid(val, u) && !insertFails && (u.email in db || !IdFree(db, u.id)) ==> r == Err(DuplicateKey)
    ensures r.Ok? ==> && r.value.Keys == db.Keys + {u.email}
                      && |r.value| == |db| + 1
                      && (forall e :: e in db ==> r.value[e] == db[e])
                      && r.value[u.email] == PreSave(c, Document(u, true))
    ensures r.Ok? && WellFormed(db) ==> WellFormed(r.value)
  {
    var errors := Validate(val, u);
    if errors != [] then Err(ValidationFailed(errors))
    else
      var saved := PreSave(c, Document(u, true));
      if insertFails then Err(DatabaseError)
      else if u.email in db || !IdFree(db, u.id) then Err(DuplicateKey)
      else Ok(db[u.email := saved])
  }
}

=== FILE: utils.dfy ===
/**
 * The helpers of `utils/utils.js`: `capitalize`, `trimData` and
 * `hashPassword`. The HMAC-SHA256 primitive and the process-wide secret are
 * parameters; the hex rendering of the digest is modelled exactly.
 */
module Utils {
  import opened Wrappers
  import opened Values
  import opened Text

  // ---------------------------------------------------------------------
  // capitalize
  // ---------------------------------------------------------------------

  /**
   * `str[0].toUpperCase()`. `str[0]` is one code unit: for an astral
   * character it is the high surrogate alone, which has no case, so it
   * comes back unchanged.
   */
  function UpperFirstUnit(upper: char -> char, c: char): char {
    if IsAstral(c) then c else upper(c)
  }

  /**
   * `str.replace(str[0], str[0].toUpperCase())`: the first occurrence of
   * the first character is the one at index 0, so only that index changes.
   * `upper` is the per-character `toUpperCase`. The source throws on the
   * empty string (`str[0]` is `undefined`); callers check for it first.
   */
  function Capitalize(upper: char -> char, s: string): (r: string)
    requires |s| > 0
    ensures |r| == |s| && r[0] == UpperFirstUnit(upper, s[0])
    ensures forall i :: 1 <= i < |s| ==> r[i] == s[i]
  {
    if IsAstral(s[0]) then s
    else
      assert FirstOccurrence(s, [s[0]], 0) by { assert s[0..1] == [s[0]]; }
      ReplaceFirst(s, [s[0]], [upper(s[0])])
  }

  /** Capitalizing twice is capitalizing once, when `upper` itself is idempotent. */
  lemma CapitalizeIdempotent(upper: char -> char, s: string)
    requires |s| > 0
    requires forall c :: upper(upper(c)) == upper(c)
    ensures Capitalize(upper, Capitalize(upper, s)) == Capitalize(upper, s)
  {
    var once := Capitalize(upper, s);
    var twice := Capitalize(upper, once);
    assert twice[0] == UpperFirstUnit(upper, once[0]) == once[0];
    assert forall i :: 0 <= i < |once| ==> twice[i] == once[i];
  }

  /** A trimmed name stays trimmed when the upper-cased initial is not blank. */
  lemma CapitalizeKeepsTrimmed(upper: char -> char, s: string)
    requires |s| > 0 && IsTrimmed(s)
    requires !IsTrimmable(UpperFirstUnit(upper, s[0]))
    ensures IsTrimmed(Capitalize(upper, s))
    ensures Trim(Capitalize(upper, s)) == Capitalize(upper, s)
  {
    TrimFixedPoints(Capitalize(upper, s));
  }

  // ---------------------------------------------------------------------
  // trimData
  // ---------------------------------------------------------------------

  /** One property of `trimData`: strings are trimmed, anything else is kept. */
  function TrimValue(v: Json): Json {
    if v.Str? then Str(Trim(v.s)) else v
  }

  /** `trimData(data)`: every own string property is replaced by its trimmed form. */
  function TrimData(data: Record): (r: Record)
    ensures r.Keys == data.Keys
    ensures forall k :: k in data && !data[k].Str? ==> r[k] == data[k]
    ensures forall k :: k in data && data[k].Str? ==> r[k] == Str(Trim(data[k].s))
    ensures forall k :: k in r && r[k].Str? ==> IsTrimmed(r[k].s)
  {
    map k | k in data :: TrimValue(data[k])
  }

  lemma {:induction false} TrimDataIdempotent(data: Record)
    ensures TrimData(TrimData(data)) == TrimData(data)
  {
    var once := TrimData(data);
    forall k | k in once
      ensures TrimValue(once[k]) == once[k]
    {
      if once[k].Str? {
        TrimFixedPoints(once[k].s);
      }
    }
  }

  /** Reading a field after `trimData` gives the trimmed field. */
  lemma GetTrimmed(data: Record, key: string)
    ensures Get(TrimData(data), key) == (if key in data then Some(TrimValue(data[key])) else None)
  {}

  // ---------------------------------------------------------------------
  // hashPassword
  // ---------------------------------------------------------------------

  newtype byte = x: int | 0 <= x < 256

  /** The 32-byte output of HMAC-SHA256. */
  type Mac = m: seq<byte> | |m| == 32 witness seq(32, _ => 0)

  /** `crypto.createHmac('sha256', CRYPTO_SECRET)`: the key and the keyed primitive. */
  datatype Crypto = Crypto(secret: string, hmacSha256: (string, string) -> Mac)

  predicate IsHexDigit(c: char) {
    '0' <= c <= '9' || 'a' <= c <= 'f'
  }

  predicate IsHexString(s: string) {
    forall i :: 0 <= i < |s| ==> IsHexDigit(s[i])
  }

  /** The lower-case digit of a nibble: `0`-`9`, then `a`-`f`. */
  function HexDigit(n: int): (c: char)
    requires 0 <= n < 16
    ensures IsHexDigit(c)
  {
    if n < 10 then ('0' as int + n) as char else ('a' as int + n - 10) as char
  }

  function HexValue(c: char): (n: int)
    requires IsHexDigit(c)
    ensures 0 <= n < 16
  {
    if c <= '9' then c as int - '0' as int else c as int - 'a' as int + 10
  }

  /** `digest('hex')`: two lower-case hex digits per byte, high nibble first. */
  function Hex(bytes: seq<byte>): (r: string)
    ensures |r| == 2 * |bytes|
    ensures IsHexString(r)
  {
    if bytes == [] then []
    else [HexDigit(bytes[0] as int / 16), HexDigit(bytes[0] as int % 16)] + Hex(bytes[1..])
  }

  /** Reads a hex string back into bytes. */
  function Unhex(s: string): (bytes: seq<byte>)
    requires |s| % 2 == 0 && IsHexString(s)
    ensures |bytes| == |s| / 2
  {
    if s == [] then []
    else [(HexValue(s[0]) * 16 + HexValue(s[1])) as byte] + Unhex(s[2..])
  }

  lemma {:induction false} UnhexHex(bytes: seq<byte>)
    ensures Unhex(Hex(bytes)) == bytes
  {
    if bytes != [] {
      var b := bytes[0] as int;
      var h := Hex(bytes);
      assert h == [HexDigit(b / 16), HexDigit(b % 16)] + Hex(bytes[1..]);
      assert h[2..] == Hex(bytes[1..]);
      assert HexValue(h[0]) * 16 + HexValue(h[1]) == b;
      UnhexHex(bytes[1..]);
    }
  }

  lemma HexInjective(a: seq<byte>, b: seq<byte>)
    ensures Hex(a) == Hex(b) <==> a == b
  {
    if Hex(a) == Hex(b) {
      UnhexHex(a);
      UnhexHex(b);
    }
  }

  /** `hashPassword(password)`: the hex HMAC-SHA256 of the password under the secret. */
  function HashPassword(c: Crypto, password: string): (digest: string)
    ensures |digest| == 64
    ensures IsHexString(digest)
  {
    Hex(c.hmacSha256(c.secret, password))
  }

  /** Two digests agree exactly when the underlying MACs agree: the hex rendering loses nothing. */
  lemma HashPasswordEqualIff(c: Crypto, p1: string, p2: string)
    ensures HashPassword(c, p1) == HashPassword(c, p2)
            <==> c.hmacSha256(c.secret, p1) == c.hmacSha256(c.secret, p2)
  {
    HexInjective(c.hmacSha256(c.secret, p1), c.hmacSha256(c.secret, p2));
  }
}

=== FILE: values.dfy ===
/**
 * The values a request handler reads out of `req.body` and `req.session`.
 * A property read yields `Option<Json>`: `None` is JavaScript's `undefined`.
 */
module Values {
  import opened Wrappers

  /**
   * A request value. The URL-encoded body parser yields only strings and
   * arrays of strings; this type is wider, so statements about it cover
   * them. Numbers are reals; NaN cannot come out of a parser.
   */
  datatype Json =
    | Null
    | Bool(b: bool)
    | Num(n: real)
    | Str(s: string)
    | Arr(items: seq<Json>)
    | Obj(fields: map<string, Json>)

  /** A plain object such as `req.body`. */
  type Record = map<string, Json>

  /** `obj[key]`, `undefined` when the key is absent. */
  function Get(obj: Record, key: string): Option<Json> {
    if key in obj then Some(obj[key]) else None
  }

  /** JavaScript truthiness: `undefined`, `null`, `false`, `0` and `""` are falsy. */
  predicate Truthy(v: Option<Json>) {
    match v
    case None => false
    case Some(Null) => false
    case Some(Bool(b)) => b
    case Some(Num(n)) => n != 0.0
    case Some(Str(s)) => s != ""
    case Some(Arr(_)) => true
    case Some(Obj(_)) => true
  }

  /** The three ways `!v || validator.isEmpty(v)` can go. */
  datatype Presence =
    | Blank            // the test is true: the field counts as missing
    | Filled(s: string) // a non-empty string
    | NotAString       // a truthy non-string: `isEmpty` throws a TypeError

  /**
   * `!v || isEmpty(v)`. `isEmpty` asserts its argument is a string and
   * then tests `length === 0`; it is only reached for truthy values.
   */
  function PresenceOf(v: Option<Json>): (p: Presence)
    ensures p.Blank? <==> !Truthy(v)
    ensures p.Filled? <==> (v.Some? && v.value.Str? && v.value.s != "")
    ensures p.Filled? ==> v == Some(Str(p.s)) && p.s != ""
  {
    if !Truthy(v) then Blank
    else if v.value.Str? then Filled(v.value.s)
    else NotAString
  }
}

=== FILE: wrappers.dfy ===
/** `Option` and `Result`, shared by the whole model. */
module Wrappers {

  /** A value that may be absent (`undefined` / `null` in the application). */
  datatype Option<+T> = None | Some(value: T)

  /** Either a computed value or the reason the computation threw. */
  datatype Result<+T, +E> = Ok(value: T) | Err(error: E)
}
